=== FILE: README.md ===
# light-mq subscriber engine and gate registry, modelled in Dafny

This project models two sequential pieces of the light-mq persistent publish/subscribe
broker, and proves properties about them:

- **The subscriber engine** (`core/subscriber.go`). `NewSub` validates a session.
  `Subscribe` reads the group's committed offset and replays the topic's stored records
  from it. It then tails the live gate channel, dropping live messages at or below the
  last replayed position. `handleMessage` writes the record's offset to the offset store
  only when the handler succeeds. `Close` releases the session's gate.
- **The gate registry** (`pubsub/gate/gate.go`). This is the process-wide map from topic
  to group to buffered message channel. It has `Open`, `SendMessage`,
  `GetMessageChannel` and `Close`.

Files:

- `options.dfy`: module `Options`, with `Option` (a nil-able pointer) and `Result` (a
  Go error return).
- `log.dfy`: module `Log`. It defines positions (`Offset`, a uint64 range), records
  (position and body), the ordering predicates `StrictlyIncreasingOffsets` (over
  records), `StrictlyIncreasing` (over bare offsets) and `Distinct`, and
  `SubsequenceOf`.
- `subscriber.dfy`: module `Subscriber`, the engine. `Subscribe` is a fold over the
  replayed records (`Replay`) followed by a filtered fold over the live messages (`Tail`).
- `delivery.dfy`: module `Delivery`. It proves in-order, exactly-once delivery across the
  replay/tail boundary, and the properties of the commit protocol.
- `gate.dfy`: module `Gate`, the registry. An immutable `map<string, map<string,
  seq<Message>>>` stands in for the channels, each one a FIFO queue of capacity 16.
  Module `GateProperties` proves FIFO order and the open/close relations.

The engine's collaborators are inputs for one fixed run:

- the committed offset (`Option<Offset>`);
- the record store's read, a function from start position to records or an error;
- the live messages received before the context is cancelled, as a sequence;
- the handler and offset-update outcomes. `Env` gives these per handler invocation
  number, which covers stateful handlers such as the tests' counting handler.

The end of the live sequence stands for cancellation, and `Subscribe` then returns
success. The outcome of directory set-up (`config.MkDirGroup`) is an input to `NewSub`.

Two consequences of the code are worth stating:

- `handleMessage` is documented as at-least-once delivery that advances the group's
  offset (core/subscriber.go:95-96). A handler error leaves the offset where it is, but
  the session moves on. A later record whose handling succeeds then commits a higher
  offset, so a session started afterwards does not re-read the failed record, provided
  the record store returns only records from the start position on.
  `Delivery.LaterSuccessCommitsPastFailure` proves this. `Delivery.StoreStaysBelowFailure`
  proves that the failed record stays within reach when no later record persisted.
- A second `Close` of the same group on a known topic panics. The first `Close` deleted
  the entry, so the lookup yields the nil channel, and `close` of a nil channel panics
  (pubsub/gate/gate.go:44-46). `Gate.Close` therefore requires the group to be present
  on a known topic. The gate package that `core/subscriber.go` actually uses
  (`core/gates`) is not part of this model.

## Model

| member | source | states |
|---|---|---|
| Subscriber.NewSub | core/subscriber.go:24-44 | An empty topic fails with the empty-topic error, even when the group is also empty. A non-empty topic with an empty group fails with an InputError. A directory set-up error is returned. Success happens exactly when all three checks pass, and the session has the given topic and group. |
| Subscriber.Close | core/subscriber.go:107-112 | A nil session releases nothing. Otherwise the gate released is the session's own (topic, group). |
| Subscriber.StartOffset | core/subscriber.go:54-57 | Replay starts at 0 when no offset was ever committed, and at the committed offset otherwise. |
| Subscriber.HandleMessage | core/subscriber.go:97-105 | The handler always sees the record. The record's offset is appended to the commits and becomes the stored offset exactly when the handler and the offset update both succeed. Otherwise the commits and the stored offset are unchanged, and processing goes on. |
| Subscriber.HandleKeepsConsistent | core/subscriber.go:97-104 | After each handled record, the offset store holds the last offset written, or the starting offset if none was written. |
| Subscriber.Replay | core/subscriber.go:63-69 | Replay hands every historical record to the handler once, in sequence order. |
| Subscriber.ReplayKeepsConsistent | core/subscriber.go:65-69 | Replay keeps the offset store equal to the last successful commit. |
| Subscriber.LastOffset | core/subscriber.go:72-78 | lastOffset is none exactly when replay was empty. Otherwise it is the final replayed record's offset, which bounds every replayed offset when the history is ordered. |
| Subscriber.Admitted | core/subscriber.go:84-88 | A live message is passed on exactly when lastOffset is none or the message's offset is strictly greater than lastOffset. |
| Subscriber.Tail | core/subscriber.go:80-92 | The tail hands over exactly the admitted live messages, and `Delivery.AdmittedKeepsArrivalOrder` shows they keep their arrival order. lastOffset is never advanced. |
| Subscriber.TailKeepsConsistent | core/subscriber.go:84-88 | Handling or skipping live messages keeps the offset store equal to the last successful commit. |
| Subscriber.Subscribe | core/subscriber.go:48-93 | A failed store read is returned as the error. Otherwise the store is read from StartOffset, lastOffset comes from the replay alone, and the handler sees the history followed by the admitted live messages. The stored offset is the last successful commit. |
| Delivery.AdmittedKeepsArrivalOrder | core/subscriber.go:80-88 | What the tail admits is the live stream with the skipped messages left out, the rest in arrival order. |
| Delivery.AdmittedKeepsEveryCopy | core/subscriber.go:84-88 | Each admitted message is handed over as many times as it arrived, and a skipped one not at all. |
| Delivery.AdmittedIncreasing | core/subscriber.go:84-88 | The duplicate filter keeps the order of an ordered live stream. |
| Delivery.AdmittedAll | core/subscriber.go:84-85 | A live stream that lies entirely above lastOffset is handed over unchanged. |
| Delivery.DeliveryIncreasing | core/subscriber.go:63-88 | With ordered history and ordered live stream, replay followed by the filtered tail is strictly increasing in offset. |
| Delivery.SubscribeDeliversInOrder | core/testutil_test.go:90-110 | Under those conditions, whatever the handler and offset store do, the handler sees strictly increasing offsets and no record twice. |
| Delivery.BoundaryExactlyOnce | core/subscriber.go:63-88 | With ordered history and ordered live stream, suppose every live message the filter skips was also replayed. Then replay followed by the filtered tail holds every record of either stream exactly once, and nothing else. |
| Delivery.SubscribeDeliversEachOnce | core/subscriber.go:65-88 | If every live message the filter skips was also replayed, every record of either stream is handed over exactly once, and nothing else is. |
| Delivery.AdmittedLogSlice | core/subscriber.go:72-88 | Over an ordered log, filtering log[k..e] against the offset of log[h-1] keeps exactly the records from index h on. |
| Delivery.HandoverIsSeamless | core/subscriber.go:52-88 | Suppose the gate opens when the log holds log[..k], replay reads log[a..h] with a <= k <= h, and the channel brings log[k..e]. Then the records handed over are the log from a onwards, each exactly once, with none lost in the overlap. |
| Delivery.SubscribeDeliversLogOnce | core/subscriber.go:48-93 | The same handover, stated for a Subscribe call: the handler sees exactly log[a..e], or log[a..h] when cancellation comes before the live channel has caught up with the replay (e <= h). |
| Delivery.CommitsAreSound | core/subscriber.go:97-104 | Every written offset is the offset of a handed-over record whose handler and offset update both succeeded. |
| Delivery.CommitsAreComplete | core/subscriber.go:99-100 | Every record whose handler and offset update succeeded has its offset written. |
| Delivery.CommitsIncreasing | core/subscriber.go:97-104 | In an ordered session the writes to the offset store strictly increase, so the committed offset never moves backwards. |
| Delivery.FailedRecordNeverCommitted | core/subscriber.go:98-99 | In an ordered session, a record whose handler failed, or whose update failed, never has its offset written. |
| Delivery.StoreStaysBelowFailure | core/subscriber.go:97-104 | If nothing after a failed record persisted, the stored offset is the starting one or lies below that record. |
| Delivery.LaterSuccessCommitsPastFailure | core/subscriber.go:97-104 | A later record that persists moves the stored offset above an earlier failed record. |
| Delivery.StoredIsHighestCommit | core/subscriber.go:97-104 | In an ordered session the commits strictly increase, the stored offset is at or above every persisted record, and no failed record's offset is among the commits. When something persisted, the stored offset is the offset of a persisted record, so it is the highest persisted one; otherwise it is the starting offset. |
| Delivery.SubscribeCommitsInOrder | core/subscriber.go:48-104 | For a Subscribe call over ordered inputs, the commits strictly increase. When something persisted, the final stored offset is the offset of a persisted record and at or above every persisted one, so it is the highest persisted one. When nothing persisted, it is the committed offset the call started from. |
| Delivery.ResumeReadsPastPersisted | core/subscriber.go:50-58 | A new session for the same group reads from the offset the previous session left in the store. That offset is at or above every record whose handling persisted. When nothing persisted, it is where the previous session started. |
| Delivery.DeliveryIgnoresOutcomes | core/subscriber.go:99-103 | Handler failures and failed offset updates never change which records are handed over. |
| Gate.SendMessage | pubsub/gate/gate.go:14-19 | The message is appended to the queue of every group registered under the topic, and the group set is unchanged. Other topics are unchanged. A topic with no entry is left as it was. Sending requires room in every queue of the topic, because a full buffered channel blocks. |
| Gate.Open | pubsub/gate/gate.go:23-31 | Creates the topic entry if it is absent. Gives the group a fresh empty queue, replacing any earlier one. Other groups of the topic and all other topics are unchanged. |
| Gate.GetMessageChannel | pubsub/gate/gate.go:33-39 | Requires the topic to have been opened (the process exits otherwise). Returns the group's current queue, or the nil channel when the group has none. |
| Gate.Close | pubsub/gate/gate.go:41-50 | On a known topic, removes exactly that group and keeps the topic entry and everything else. Closing the nil channel of a missing group panics, so that case is a precondition. On an unknown topic it changes nothing. |
| Gate.Receive | core/subscriber.go:82 | A receive takes the oldest queued message of the group, and changes nothing else. It would block on an empty queue. |
| Gate.Step | pubsub/gate/gate.go:14-19 | One send to the topic, or one receive by any group of the topic. It blocks exactly when a send finds some channel full or a receive finds its channel empty or nil. A receive shortens the receiving group's channel by one and gives the observed group nothing unless it is the receiver. For the observed group, what it received followed by its queue afterwards equals its queue before followed by what was sent. |
| Gate.StepFrame | pubsub/gate/gate.go:14-19 | What a feasible step leaves alone: other topics and the topic's group set are unchanged. A receive takes the head of the receiving group's channel and leaves every other channel of the topic as it was. A send appends its message to every channel of the topic. |
| GateProperties.RunIsFifo | pubsub/gate/gate.go:14-19 | Over any feasible interleaving of sends and of receives by any of the topic's groups, what the observed group received, followed by what is still queued, equals what was queued before followed by everything sent, in send order. |
| GateProperties.OpenThenReceiveInSendOrder | pubsub/gate/gate.go:23-31 | After Open, a group receives exactly the messages sent after the open, in send order, with nothing lost, while other groups of the topic receive concurrently. |
| GateProperties.OtherReceiveUnblocksSend | pubsub/gate/gate.go:14-19 | A send blocks while another group's channel is full. Once that group receives, the send goes through and reaches the observed group's channel too. |
| GateProperties.TwoGroupsReceiveUnbounded | core/pubsub_test.go:33-42 | With two subscriber groups that keep draining their channels, any sequence of messages can be sent, well past the channel capacity. The observed group receives exactly that sequence, in send order, and the registry returns to its start. |
| GateProperties.NothingRoutedBeforeOpen | pubsub/gate/gate.go:10-19 | At process start no topic is open. A send reaches nobody, a close changes nothing, and the first Open creates the topic with that group's empty channel alone. |
| GateProperties.CloseUndoesOpen | pubsub/gate/gate.go:41-46 | Closing a group that was just opened restores the registry. Under a topic that was new, the now-empty topic entry remains. |
| GateProperties.ReopenEmptiesSlot | pubsub/gate/gate.go:30 | Re-opening a group puts a fresh empty queue in its registry slot, so the registry no longer reaches the messages the old channel still held. |

## Left out

- Goroutines, `select`, channel blocking and backpressure are not modelled. Neither is the unsynchronised access to the registry map (`pubsub/gate/gate.go:8`). One interleaving of sends and of receives by the topic's groups is an input sequence. A send into a full channel is a precondition, or an infeasible interleaving in `Gate.Run`.
- Gate.SendMessage: a send reaches all of the topic's channels in one step. The Go loop fills them one at a time and can block part way through, with some groups already holding the message; the model only has the states before and after the whole send.
- Context cancellation is not modelled as such. The end of the live input sequence stands for it, and `Subscribe` returns success.
- Storage is abstract. Record store reads (`recordstore.GetAllFrom`) are an input function. The offset store is a starting value, a sequence of writes and a final value. Directory set-up is an input outcome. Whether a read from position p includes the record at p cannot be seen from these files, so no property depends on it. The read is not constrained to return only records from p on; statements about what a later session re-reads assume it does.
- Two sessions of the same group racing on the group's offset (`core/subscriber.go:49`, exercised by `TestOnePubManySubsInGroupAllFromDisk` at `core/pubsub_test.go:55-76`) are not modelled. `Subscriber.Consistent` and `Delivery.ResumeReadsPastPersisted` assume the session is the only writer of its group's offset.
- Logging, `String()` formatting and the message types beyond offset and body are not modelled.
- Publishing (appending to the record store, then broadcasting) belongs to another file and is not part of this model. `Delivery.HandoverIsSeamless` takes an ordered log as given. Per-publisher issuance order then follows from delivery being exactly that log slice.
- Delivery.HandoverIsSeamless: assumes that the channel brings exactly log[k..e], that is, every record broadcast after the open was appended after it. Publishing appends first and broadcasts second. A broadcast held up past the open (for example, blocked on another group's full channel) can put a record below k on the channel. With an empty replay, lastOffset is none, and that record is handed over a second time.
- Channel identity and aliasing are not modelled. A channel is its group's registry slot, and `Gate.Receive` reads the group's current slot. In Go, a goroutine that obtained a channel before the group was re-opened still holds the old channel and can drain its buffered messages.
- The `core/gates` package that `core/subscriber.go` uses is not part of this model. The subscriber takes the live channel contents as input and does not use `Gate`.
- Subscriber.Close: names the (topic, group) gate to release, instead of acting on a registry, because the gate type it calls is not available.
- Gate.Run: states only that the topic and its group set survive. Its FIFO content is stated by `GateProperties.RunIsFifo`.

=== FILE: delivery.dfy ===
/** What the subscriber engine guarantees about the records it hands to the handler and
    the offsets it commits: strictly increasing delivery, each record once across the
    replay/tail boundary, and commits that follow successful handling only. */
module Delivery {
  import opened Options
  import opened Log
  import opened Subscriber

  /** The tail hands messages over in arrival order: what it admits is the live stream
      with the skipped messages left out. */
  lemma {:induction false} AdmittedKeepsArrivalOrder(last: Option<Offset>, live: seq<Record>)
    ensures SubsequenceOf(Admitted(last, live), live)
    decreases |live|
  {
    if live != [] {
      var rest := Admitted(last, live[1..]);
      AdmittedKeepsArrivalOrder(last, live[1..]);
      if Admits(last, live[0]) {
        var a := [live[0]] + rest;
        assert Admitted(last, live) == a;
        assert a[0] == live[0] && a[1..] == rest;
      } else {
        assert Admitted(last, live) == rest;
        // every element of rest is admitted, so none is live[0]
        if rest != [] {
          assert rest[0] in rest;
        }
      }
    }
  }

  /** The tail keeps every copy of an admitted message and no copy of a skipped one. */
  lemma {:induction false} AdmittedKeepsEveryCopy(last: Option<Offset>, live: seq<Record>)
    ensures forall m :: multiset(Admitted(last, live))[m] == if Admits(last, m) then multiset(live)[m] else 0
    decreases |live|
  {
    if live != [] {
      var rest := Admitted(last, live[1..]);
      AdmittedKeepsEveryCopy(last, live[1..]);
      assert live == [live[0]] + live[1..];
      var kept := if Admits(last, live[0]) then [live[0]] else [];
      assert Admitted(last, live) == kept + rest;
      assert multiset(live) == multiset([live[0]]) + multiset(live[1..]);
      assert multiset(Admitted(last, live)) == multiset(kept) + multiset(rest);
    }
  }

  /** The tail filter keeps the order of the live stream. */
  lemma {:induction false} AdmittedIncreasing(last: Option<Offset>, live: seq<Record>)
    requires StrictlyIncreasingOffsets(live)
    ensures StrictlyIncreasingOffsets(Admitted(last, live))
    decreases |live|
  {
    if live != [] {
      var rest := live[1..];
      var tail := Admitted(last, rest);
      AdmittedIncreasing(last, rest);
      if Admits(last, live[0]) {
        assert Admitted(last, live) == [live[0]] + tail;
        assert forall m :: m in tail ==> live[0].offset < m.offset by {
          HeadBelowRest(live);
        }
        ConsIncreasing(live[0], tail);
      } else {
        assert Admitted(last, live) == tail;
      }
    }
  }

  /** In an ordered sequence the first record lies below every later one. */
  lemma HeadBelowRest(rs: seq<Record>)
    requires StrictlyIncreasingOffsets(rs) && rs != []
    ensures forall m :: m in rs[1..] ==> rs[0].offset < m.offset
  {
  }

  /** Putting a record below all of an ordered sequence in front keeps it ordered. */
  lemma ConsIncreasing(x: Record, rs: seq<Record>)
    requires StrictlyIncreasingOffsets(rs)
    requires forall m :: m in rs ==> x.offset < m.offset
    ensures StrictlyIncreasingOffsets([x] + rs)
  {
  }

  /** Replay followed by the filtered tail is strictly increasing when both inputs are:
      every admitted live record lies above the last replayed one. */
  lemma DeliveryIncreasing(history: seq<Record>, live: seq<Record>)
    requires StrictlyIncreasingOffsets(history)
    requires StrictlyIncreasingOffsets(live)
    ensures StrictlyIncreasingOffsets(history + Admitted(LastOffset(history), live))
  {
    var last := LastOffset(history);
    var tail := Admitted(last, live);
    AdmittedIncreasing(last, live);
    var d := history + tail;
    forall i, j | 0 <= i < j < |d|
      ensures d[i].offset < d[j].offset
    {
      if j < |history| {
        assert d[i] == history[i] && d[j] == history[j];
      } else if i < |history| {
        assert d[j] in tail;
        assert history[i].offset <= last.value;
      } else {
        assert d[i] == tail[i - |history|] && d[j] == tail[j - |history|];
      }
    }
  }

  /** Strictly increasing positions rule out a record delivered twice. */
  lemma IncreasingIsDistinct(rs: seq<Record>)
    requires StrictlyIncreasingOffsets(rs)
    ensures Distinct(rs)
  {
  }

  /** When the store returns an ordered history and the live channel carries an ordered
      stream, the handler sees strictly increasing positions and never the same record
      twice, whatever the handler and the offset store do. */
  lemma SubscribeDeliversInOrder(env: Env, committed: Option<Offset>,
                                 readFrom: Offset -> Result<seq<Record>, string>, live: seq<Record>)
    requires readFrom(StartOffset(committed)).Success?
    requires StrictlyIncreasingOffsets(readFrom(StartOffset(committed)).value)
    requires StrictlyIncreasingOffsets(live)
    ensures Subscribe(env, committed, readFrom, live).Success?
    ensures StrictlyIncreasingOffsets(Subscribe(env, committed, readFrom, live).value.progress.delivered)
    ensures Distinct(Subscribe(env, committed, readFrom, live).value.progress.delivered)
  {
    var history := readFrom(StartOffset(committed)).value;
    DeliveryIncreasing(history, live);
    IncreasingIsDistinct(history + Admitted(LastOffset(history), live));
  }

  /** Exactly once across the boundary: if every live message the filter skips was also
      replayed, then replay followed by the filtered tail holds every record of either
      stream, nothing else, and nothing twice. */
  lemma BoundaryExactlyOnce(history: seq<Record>, live: seq<Record>)
    requires StrictlyIncreasingOffsets(history) && StrictlyIncreasingOffsets(live)
    requires forall m :: m in live && !Admits(LastOffset(history), m) ==> m in history
    ensures var delivered := history + Admitted(LastOffset(history), live);
            && Distinct(delivered)
            && forall m :: m in delivered <==> m in history || m in live
  {
    DeliveryIncreasing(history, live);
    IncreasingIsDistinct(history + Admitted(LastOffset(history), live));
  }

  /** The same, stated of a Subscribe call. */
  lemma SubscribeDeliversEachOnce(env: Env, committed: Option<Offset>,
                                  readFrom: Offset -> Result<seq<Record>, string>, live: seq<Record>)
    requires readFrom(StartOffset(committed)).Success?
    requires StrictlyIncreasingOffsets(readFrom(StartOffset(committed)).value)
    requires StrictlyIncreasingOffsets(live)
    requires forall m :: m in live && !Admits(LastOffset(readFrom(StartOffset(committed)).value), m) ==>
                           m in readFrom(StartOffset(committed)).value
    ensures Subscribe(env, committed, readFrom, live).Success?
    ensures var history := readFrom(StartOffset(committed)).value;
            var delivered := Subscribe(env, committed, readFrom, live).value.progress.delivered;
            && Distinct(delivered)
            && forall m :: m in delivered <==> m in history || m in live
  {
    BoundaryExactlyOnce(readFrom(StartOffset(committed)).value, live);
  }

  /** A live stream that the filter lets through entirely is handled as it came. */
  lemma {:induction false} AdmittedAll(last: Option<Offset>, live: seq<Record>)
    requires forall m :: m in live ==> Admits(last, m)
    ensures Admitted(last, live) == live
    decreases |live|
  {
    if live != [] {
      var rest := live[1..];
      assert Admits(last, live[0]);
      assert forall m :: m in rest ==> m in live;
      AdmittedAll(last, rest);
      assert live == [live[0]] + rest;
    }
  }

  /** Over an ordered log, filtering the slice log[k..e] against the position of log[h-1]
      keeps exactly the records from index h on. */
  lemma {:induction false} AdmittedLogSlice(log: seq<Record>, k: nat, h: nat, e: nat)
    requires StrictlyIncreasingOffsets(log)
    requires 0 < h && k <= h && k <= e <= |log| && h <= |log|
    ensures Admitted(Some(log[h - 1].offset), log[k..e]) == if e <= h then [] else log[h..e]
    decreases e - k
  {
    var last := Some(log[h - 1].offset);
    if k < e {
      if k < h {
        assert !Admits(last, log[k]) by {
          if k < h - 1 { assert log[k].offset < log[h - 1].offset; }
        }
        assert log[k..e][0] == log[k] && log[k..e][1..] == log[k + 1..e];
        AdmittedLogSlice(log, k + 1, h, e);
      } else {
        forall m | m in log[k..e]
          ensures Admits(last, m)
        {
          var i :| 0 <= i < |log[k..e]| && log[k..e][i] == m;
          assert log[k..e][i] == log[k + i];
        }
        AdmittedAll(last, log[k..e]);
      }
    }
  }

  /** The replay/tail handover over a topic's ordered log. The gate is opened when the log
      holds log[..k]; replay from index a (a <= k) reads through index h (k <= h), so the
      records from k on reach both paths; the live channel delivers log[k..e] before
      cancellation. The records handed over are the log from a on, each exactly once, with
      none lost in the overlap. */
  lemma HandoverIsSeamless(log: seq<Record>, a: nat, k: nat, h: nat, e: nat)
    requires StrictlyIncreasingOffsets(log)
    requires a <= k <= h <= |log| && k <= e <= |log|
    ensures log[a..h] + Admitted(LastOffset(log[a..h]), log[k..e]) == if e <= h then log[a..h] else log[a..e]
  {
    var z := if e <= h then h else e;
    assert Admitted(LastOffset(log[a..h]), log[k..e]) == log[h..z] by {
      if a == h {
        AdmittedAll(None, log[k..e]);
        assert log[k..e] == log[h..z];
      } else {
        assert LastOffset(log[a..h]) == Some(log[h - 1].offset);
        AdmittedLogSlice(log, k, h, e);
      }
    }
    SliceJoin(log, a, h, z);
  }

  /** Adjacent slices join. */
  lemma SliceJoin(s: seq<Record>, a: nat, h: nat, z: nat)
    requires a <= h <= z <= |s|
    ensures s[a..h] + s[h..z] == s[a..z]
  {
  }

  /** The same handover stated of a Subscribe call, including a cancellation that comes
      before the live channel has caught up with the replay (e <= h). */
  lemma SubscribeDeliversLogOnce(env: Env, committed: Option<Offset>,
                                 readFrom: Offset -> Result<seq<Record>, string>,
                                 log: seq<Record>, a: nat, k: nat, h: nat, e: nat)
    requires StrictlyIncreasingOffsets(log)
    requires a <= k <= h <= |log| && k <= e <= |log|
    requires readFrom(StartOffset(committed)) == Success(log[a..h])
    ensures Subscribe(env, committed, readFrom, log[k..e]).Success?
    ensures Subscribe(env, committed, readFrom, log[k..e]).value.progress.delivered
              == if e <= h then log[a..h] else log[a..e]
  {
    var history := log[a..h];
    var delivered := Subscribe(env, committed, readFrom, log[k..e]).value.progress.delivered;
    assert delivered == history + Admitted(LastOffset(history), log[k..e]);
    HandoverIsSeamless(log, a, k, h, e);
  }

  /** Only offsets of records whose handling persisted are written. */
  lemma {:induction false} CommitsAreSound(env: Env, d: seq<Record>)
    ensures forall c :: c in CommitsOf(env, d) ==> exists i :: 0 <= i < |d| && Persists(env, i) && d[i].offset == c
    decreases |d|
  {
    if d != [] {
      var n := |d| - 1;
      CommitsAreSound(env, d[..n]);
      forall c | c in CommitsOf(env, d)
        ensures exists i :: 0 <= i < |d| && Persists(env, i) && d[i].offset == c
      {
        if c in CommitsOf(env, d[..n]) {
          var i :| 0 <= i < n && Persists(env, i) && d[..n][i].offset == c;
          assert d[i] == d[..n][i];
        } else {
          assert Persists(env, n) && d[n].offset == c;
        }
      }
    }
  }

  /** Every record whose handling persisted has its offset written. */
  lemma {:induction false} CommitsAreComplete(env: Env, d: seq<Record>, i: nat)
    requires i < |d| && Persists(env, i)
    ensures d[i].offset in CommitsOf(env, d)
    decreases |d|
  {
    var n := |d| - 1;
    if i < n {
      CommitsAreComplete(env, d[..n], i);
    }
  }

  /** In an ordered session the writes to the offset store strictly increase: the
      committed offset is never moved backwards. */
  lemma {:induction false} CommitsIncreasing(env: Env, d: seq<Record>)
    requires StrictlyIncreasingOffsets(d)
    ensures StrictlyIncreasing(CommitsOf(env, d))
    decreases |d|
  {
    if d != [] {
      var n := |d| - 1;
      assert StrictlyIncreasingOffsets(d[..n]);
      CommitsIncreasing(env, d[..n]);
      CommitsAreSound(env, d[..n]);
      var prev := CommitsOf(env, d[..n]);
      forall c | c in prev
        ensures c < d[n].offset
      {
        var i :| 0 <= i < n && Persists(env, i) && d[..n][i].offset == c;
        assert d[..n][i] == d[i];
      }
      var cs := CommitsOf(env, d);
      forall i, j | 0 <= i < j < |cs|
        ensures cs[i] < cs[j]
      {
        if j >= |prev| {
          assert cs[i] == prev[i];
          assert prev[i] in prev;
        }
      }
    }
  }

  /** A record whose handler (or whose offset write) failed never has its offset written
      in an ordered session. */
  lemma FailedRecordNeverCommitted(env: Env, d: seq<Record>, i: nat)
    requires StrictlyIncreasingOffsets(d)
    requires i < |d| && !Persists(env, i)
    ensures d[i].offset !in CommitsOf(env, d)
  {
    CommitsAreSound(env, d);
  }

  /** If nothing after a failed record persists, the offset store stays below it, so a
      fresh session reading from the committed offset sees that record again, provided
      the store returns the records from the start position on. */
  lemma StoreStaysBelowFailure(env: Env, p: Progress, i: nat)
    requires Consistent(env, p) && StrictlyIncreasingOffsets(p.delivered)
    requires i < |p.delivered| && !Persists(env, i)
    requires forall j :: i < j < |p.delivered| ==> !Persists(env, j)
    ensures p.stored == p.base || p.stored.value < p.delivered[i].offset
  {
    var cs := CommitsOf(env, p.delivered);
    if cs != [] {
      CommitsAreSound(env, p.delivered);
      assert cs[|cs| - 1] in cs;
      var j :| 0 <= j < |p.delivered| && Persists(env, j) && p.delivered[j].offset == cs[|cs| - 1];
      assert j < i;
    }
  }

  /** But a later record that persists moves the offset store past a failed one: the
      failed record is not re-read by a session that starts from the committed offset,
      provided the store returns only records from the start position on. */
  lemma LaterSuccessCommitsPastFailure(env: Env, p: Progress, i: nat, j: nat)
    requires Consistent(env, p) && StrictlyIncreasingOffsets(p.delivered)
    requires i < j < |p.delivered| && !Persists(env, i) && Persists(env, j)
    ensures p.stored.Some? && p.stored.value > p.delivered[i].offset
  {
    var cs := CommitsOf(env, p.delivered);
    CommitsAreComplete(env, p.delivered, j);
    CommitsIncreasing(env, p.delivered);
    var k :| 0 <= k < |cs| && cs[k] == p.delivered[j].offset;
    assert p.delivered[i].offset < p.delivered[j].offset;
    if k < |cs| - 1 {
      assert cs[k] < cs[|cs| - 1];
    }
  }

  /** In an ordered session the offset store holds the highest offset whose handling
      persisted (or the starting offset when none did), and no failed record's offset. */
  lemma StoredIsHighestCommit(env: Env, p: Progress)
    requires Consistent(env, p) && StrictlyIncreasingOffsets(p.delivered)
    ensures StrictlyIncreasing(p.commits)
    ensures forall i :: 0 <= i < |p.delivered| && Persists(env, i) ==> p.stored.Some? && p.delivered[i].offset <= p.stored.value
    ensures forall i :: 0 <= i < |p.delivered| && !Persists(env, i) ==> p.delivered[i].offset !in p.commits
    ensures p.commits != [] ==> exists i :: 0 <= i < |p.delivered| && Persists(env, i) && p.stored == Some(p.delivered[i].offset)
    ensures p.commits == [] ==> p.stored == p.base
  {
    CommitsIncreasing(env, p.delivered);
    if p.commits != [] {
      CommitsAreSound(env, p.delivered);
      assert p.commits[|p.commits| - 1] in p.commits;
    }
    forall i | 0 <= i < |p.delivered| && Persists(env, i)
      ensures p.stored.Some? && p.delivered[i].offset <= p.stored.value
    {
      CommitsAreComplete(env, p.delivered, i);
      var k :| 0 <= k < |p.commits| && p.commits[k] == p.delivered[i].offset;
      if k < |p.commits| - 1 {
        assert p.commits[k] < p.commits[|p.commits| - 1];
      }
    }
    forall i | 0 <= i < |p.delivered| && !Persists(env, i)
      ensures p.delivered[i].offset !in p.commits
    {
      FailedRecordNeverCommitted(env, p.delivered, i);
    }
  }

  /** The same, at the end of a Subscribe call over ordered inputs. */
  lemma SubscribeCommitsInOrder(env: Env, committed: Option<Offset>,
                                readFrom: Offset -> Result<seq<Record>, string>, live: seq<Record>)
    requires readFrom(StartOffset(committed)).Success?
    requires StrictlyIncreasingOffsets(readFrom(StartOffset(committed)).value)
    requires StrictlyIncreasingOffsets(live)
    ensures Subscribe(env, committed, readFrom, live).Success?
    ensures var p := Subscribe(env, committed, readFrom, live).value.progress;
            && StrictlyIncreasing(p.commits)
            && (forall i :: 0 <= i < |p.delivered| && Persists(env, i) ==> p.stored.Some? && p.delivered[i].offset <= p.stored.value)
            && (p.commits != [] ==> exists i :: 0 <= i < |p.delivered| && Persists(env, i) && p.stored == Some(p.delivered[i].offset))
            && (p.commits == [] ==> p.stored == committed)
  {
    SubscribeDeliversInOrder(env, committed, readFrom, live);
    StoredIsHighestCommit(env, Subscribe(env, committed, readFrom, live).value.progress);
  }

  /** Resumption: a new session for the same group reads from the offset the last one
      left in the store, which is at or above every record whose handling persisted, and
      is where the previous session started when nothing persisted. */
  lemma ResumeReadsPastPersisted(env: Env, committed: Option<Offset>,
                                 readFrom: Offset -> Result<seq<Record>, string>, live: seq<Record>)
    requires readFrom(StartOffset(committed)).Success?
    requires StrictlyIncreasingOffsets(readFrom(StartOffset(committed)).value)
    requires StrictlyIncreasingOffsets(live)
    ensures var p := Subscribe(env, committed, readFrom, live).value.progress;
            && (forall i :: 0 <= i < |p.delivered| && Persists(env, i) ==> p.delivered[i].offset <= StartOffset(p.stored))
            && (p.commits == [] ==> StartOffset(p.stored) == StartOffset(committed))
  {
    SubscribeCommitsInOrder(env, committed, readFrom, live);
  }

  /** Handler failures and failed offset writes never change what is handed over: two
      runs that differ only in those outcomes deliver the same records. */
  lemma DeliveryIgnoresOutcomes(env1: Env, env2: Env, committed: Option<Offset>,
                                readFrom: Offset -> Result<seq<Record>, string>, live: seq<Record>)
    requires readFrom(StartOffset(committed)).Success?
    ensures Subscribe(env1, committed, readFrom, live).value.progress.delivered
         == Subscribe(env2, committed, readFrom, live).value.progress.delivered
  {
  }
}

=== FILE: gate.dfy ===
/** The live fan-out registry of pubsub/gate/gate.go: per topic, one buffered channel per
    subscriber group. A channel is its FIFO queue of undelivered messages; a send that
    would block on a full channel, and a receive that would block on an empty one, are
    excluded by preconditions (or, in `Run`, make the interleaving infeasible). */
module Gate {
  import opened Options
  import opened Log

  type Topic = string
  type Group = string

  /** A published message as routed to live subscribers. */
  datatype Message = Message(offset: Offset, body: Body)

  /** topic -> group -> channel contents. */
  type Registry = map<Topic, map<Group, seq<Message>>>

  /** Buffer size of every channel that Open creates. */
  const Capacity: nat := 16

  /** The registry at process start. */
  const Empty: Registry := map[]

  /** No channel of `topic` is full, so a send to the topic does not block. */
  predicate HasRoom(reg: Registry, topic: Topic)
  {
    topic in reg ==> forall g :: g in reg[topic] ==> |reg[topic][g]| < Capacity
  }

  /** SendMessage: append `m` to the channel of every group open under `topic`. A topic
      never opened has no groups, so nothing happens. */
  function SendMessage(reg: Registry, topic: Topic, m: Message): (r: Registry)
    requires HasRoom(reg, topic)
    ensures r.Keys == reg.Keys
    ensures forall t :: t in reg && t != topic ==> r[t] == reg[t]
    ensures topic in reg ==> r[topic].Keys == reg[topic].Keys
    ensures topic in reg ==> forall g :: g in reg[topic] ==> r[topic][g] == reg[topic][g] + [m]
    ensures topic !in reg ==> r == reg
  {
    if topic in reg then
      var groups := reg[topic];
      reg[topic := map g | g in groups :: groups[g] + [m]]
    else reg
  }

  /** Open: create the topic's entry if absent, then give `group` a fresh empty channel,
      replacing (and orphaning) any channel it had. */
  function Open(reg: Registry, topic: Topic, group: Group): (r: Registry)
    ensures r.Keys == reg.Keys + {topic}
    ensures forall t :: t in reg && t != topic ==> r[t] == reg[t]
    ensures topic in reg ==> r[topic].Keys == reg[topic].Keys + {group}
    ensures topic !in reg ==> r[topic].Keys == {group}
    ensures r[topic][group] == []
    ensures topic in reg ==> forall g :: g in reg[topic] && g != group ==> r[topic][g] == reg[topic][g]
  {
    var groups := if topic in reg then reg[topic] else map[];
    reg[topic := groups[group := []]]
  }

  /** GetMessageChannel: the topic must have been opened (the process exits otherwise).
      A group without a channel yields Go's nil channel, modelled as None. */
  function GetMessageChannel(reg: Registry, topic: Topic, group: Group): (ch: Option<seq<Message>>)
    requires topic in reg
    ensures ch.Some? <==> group in reg[topic]
    ensures ch.Some? ==> ch.value == reg[topic][group]
  {
    if group in reg[topic] then Some(reg[topic][group]) else None
  }

  /** Close: remove the group's channel and close it. On a topic never opened this only
      logs a warning. On an opened topic the group must have a channel: closing the nil
      channel that a missing group yields panics. The topic entry itself stays. */
  function Close(reg: Registry, topic: Topic, group: Group): (r: Registry)
    requires topic in reg ==> group in reg[topic]
    ensures r.Keys == reg.Keys
    ensures forall t :: t in reg && t != topic ==> r[t] == reg[t]
    ensures topic in reg ==> r[topic].Keys == reg[topic].Keys - {group}
    ensures topic in reg ==> forall g :: g in r[topic] ==> r[topic][g] == reg[topic][g]
    ensures topic !in reg ==> r == reg
  {
    if topic in reg then reg[topic := reg[topic] - {group}] else reg
  }

  /** A receive `<-ch` on a group's channel, as the subscriber's tail loop does: the oldest
      message leaves the queue. None when the queue is empty (the receive would block). */
  function Receive(reg: Registry, topic: Topic, group: Group): (r: Option<(Message, Registry)>)
    requires topic in reg && group in reg[topic]
    ensures r.None? <==> reg[topic][group] == []
    ensures r.Some? ==> var (m, reg') := r.value;
              && reg'.Keys == reg.Keys
              && (forall t :: t in reg && t != topic ==> reg'[t] == reg[t])
              && reg'[topic].Keys == reg[topic].Keys
              && (forall g :: g in reg[topic] && g != group ==> reg'[topic][g] == reg[topic][g])
              && [m] + reg'[topic][group] == reg[topic][group]
  {
    var q := reg[topic][group];
    if q == [] then None
    else
      assert [q[0]] + q[1..] == q;
      Some((q[0], reg[topic := reg[topic][group := q[1..]]]))
  }

  /** One step of an interleaving observed on a single topic: a publisher's send to the
      topic, or a receive by the subscriber of group `g`, each group's subscriber draining
      its own channel concurrently with the others. */
  datatype Event = Send(m: Message) | Recv(g: Group)

  /** What one event sends: its message, or nothing for a receive. */
  function SentBy(e: Event): seq<Message>
  {
    if e.Send? then [e.m] else []
  }

  /** The messages an interleaving sends, in order. */
  function Sent(events: seq<Event>): (ms: seq<Message>)
    ensures |ms| <= |events|
  {
    if events == [] then [] else SentBy(events[0]) + Sent(events[1..])
  }

  /** One event on the topic, seen from `group`: what `group` received by it and the
      registry after it, or None when it would block (a send while some channel of the
      topic is full, a receive on an empty or nil channel). A receive by another group
      gives `group` nothing and leaves its channel alone. The group's channel loses at
      its front what the group received and gains at its back what was sent. */
  function Step(reg: Registry, topic: Topic, group: Group, e: Event): (r: Option<(seq<Message>, Registry)>)
    requires topic in reg && group in reg[topic]
    ensures r.None? <==> if e.Send? then !HasRoom(reg, topic)
                         else e.g !in reg[topic] || reg[topic][e.g] == []
    ensures r.Some? ==> topic in r.value.1 && r.value.1[topic].Keys == reg[topic].Keys
    ensures r.Some? && e.Recv? ==> |r.value.1[topic][e.g]| + 1 == |reg[topic][e.g]|
    ensures r.Some? && e.Recv? && e.g != group ==> r.value.0 == []
    ensures r.Some? ==> r.value.0 + r.value.1[topic][group] == reg[topic][group] + SentBy(e)
  {
    match e
    case Send(m) =>
      if HasRoom(reg, topic) then Some(([], SendMessage(reg, topic, m))) else None
    case Recv(g) =>
      if g !in reg[topic] then None
      else
        var rcv := Receive(reg, topic, g);
        if rcv.None? then None
        else if g == group then Some(([rcv.value.0], rcv.value.1))
        else Some(([], rcv.value.1))
  }

  /** What a feasible step leaves alone and what it changes: other topics are untouched;
      a receive takes the head of the receiving group's channel and leaves every other
      channel of the topic as it was; a send appends its message to every channel of the
      topic. */
  lemma StepFrame(reg: Registry, topic: Topic, group: Group, e: Event)
    requires topic in reg && group in reg[topic]
    requires Step(reg, topic, group, e).Some?
    ensures var after := Step(reg, topic, group, e).value.1;
            && after.Keys == reg.Keys
            && (forall t :: t in reg && t != topic ==> after[t] == reg[t])
            && after[topic].Keys == reg[topic].Keys
            && (e.Recv? ==> reg[topic][e.g] != []
                            && [reg[topic][e.g][0]] + after[topic][e.g] == reg[topic][e.g]
                            && forall h :: h in reg[topic] && h != e.g ==> after[topic][h] == reg[topic][h])
            && (e.Send? ==> forall h :: h in reg[topic] ==> after[topic][h] == reg[topic][h] + [e.m])
  {
  }

  /** Plays an interleaving of sends to `topic` and receives by the topic's groups from
      `reg`, returning the messages `group` received and the final registry, or None when some
      step would block. */
  function Run(reg: Registry, topic: Topic, group: Group, events: seq<Event>): (r: Option<(seq<Message>, Registry)>)
    requires topic in reg && group in reg[topic]
    ensures r.Some? ==> topic in r.value.1 && r.value.1[topic].Keys == reg[topic].Keys
    decreases |events|
  {
    if events == [] then Some(([], reg))
    else
      var first := Step(reg, topic, group, events[0]);
      if first.None? then None
      else
        var after := Run(first.value.1, topic, group, events[1..]);
        if after.None? then None else Some((first.value.0 + after.value.0, after.value.1))
  }
}

/** Properties relating several registry operations. */
module GateProperties {
  import opened Options
  import opened Gate

  /** Each channel is FIFO: over any feasible interleaving, what the group received
      followed by what is still queued is what was queued before followed by what was
      sent. The topic's group set and every other topic are untouched. */
  lemma {:induction false} RunIsFifo(reg: Registry, topic: Topic, group: Group, events: seq<Event>)
    requires topic in reg && group in reg[topic]
    ensures Run(reg, topic, group, events).Some? ==>
              var r := Run(reg, topic, group, events).value;
              r.0 + r.1[topic][group] == reg[topic][group] + Sent(events)
    decreases |events|
  {
    if events != [] && Run(reg, topic, group, events).Some? {
      var first := Step(reg, topic, group, events[0]).value;
      var rest := events[1..];
      var after := Run(first.1, topic, group, rest).value;
      RunIsFifo(first.1, topic, group, rest);
      Chain(first.0, after.0, after.1[topic][group], first.1[topic][group], reg[topic][group],
            SentBy(events[0]), Sent(rest));
    }
  }

  /** Two FIFO steps compose: what was received by both, followed by what is left, is
      what was queued followed by what both sent. */
  lemma Chain(got1: seq<Message>, got2: seq<Message>, left: seq<Message>, mid: seq<Message>,
              queued: seq<Message>, sent1: seq<Message>, sent2: seq<Message>)
    requires got1 + mid == queued + sent1
    requires got2 + left == mid + sent2
    ensures (got1 + got2) + left == queued + (sent1 + sent2)
  {
    calc {
      (got1 + got2) + left;
      got1 + (got2 + left);
      got1 + (mid + sent2);
      (got1 + mid) + sent2;
      (queued + sent1) + sent2;
    }
  }

  /** A subscriber that opens its channel and then reads receives exactly the messages
      sent to the topic after the open, in send order, with none lost: a prefix of them,
      the rest still queued. */
  lemma OpenThenReceiveInSendOrder(reg: Registry, topic: Topic, group: Group, events: seq<Event>)
    ensures var started := Open(reg, topic, group);
            Run(started, topic, group, events).Some? ==>
              var r := Run(started, topic, group, events).value;
              r.0 + r.1[topic][group] == Sent(events)
  {
    var started := Open(reg, topic, group);
    RunIsFifo(started, topic, group, events);
  }

  /** The outcome of a run preceded by receiving `got`. */
  function Prefix(got: seq<Message>, o: Option<(seq<Message>, Registry)>): Option<(seq<Message>, Registry)>
  {
    if o.None? then None else Some((got + o.value.0, o.value.1))
  }

  /** Receiving `a` and then `b` before a run is receiving `a + b` before it. */
  lemma PrefixTwice(a: seq<Message>, b: seq<Message>, o: Option<(seq<Message>, Registry)>)
    ensures Prefix(a, Prefix(b, o)) == Prefix(a + b, o)
  {
    if o.Some? {
      assert a + (b + o.value.0) == (a + b) + o.value.0;
    }
  }

  /** A run that starts with a feasible event continues from the registry that event
      leaves, and `group` receives what the event gave it followed by the rest. */
  lemma RunFirst(reg: Registry, topic: Topic, group: Group, e: Event, rest: seq<Event>,
                 got: seq<Message>, next: Registry)
    requires topic in reg && group in reg[topic]
    requires Step(reg, topic, group, e) == Some((got, next))
    ensures topic in next && group in next[topic]
    ensures Run(reg, topic, group, [e] + rest) == Prefix(got, Run(next, topic, group, rest))
  {
    assert ([e] + rest)[1..] == rest;
  }

  /** A receive from the only full channel of a topic leaves room in all of them. */
  lemma ReceiveMakesRoom(reg: Registry, topic: Topic, other: Group)
    requires topic in reg && other in reg[topic] && |reg[topic][other]| == Capacity
    requires forall g :: g in reg[topic] && g != other ==> |reg[topic][g]| < Capacity
    ensures Receive(reg, topic, other).Some?
    ensures HasRoom(Receive(reg, topic, other).value.1, topic)
  {
    var drained := Receive(reg, topic, other).value.1;
    forall g | g in drained[topic]
      ensures |drained[topic][g]| < Capacity
    {
      if g != other {
        assert drained[topic][g] == reg[topic][g];
      }
    }
  }

  /** A full channel of another group blocks a send until that group's subscriber
      receives; its receive makes room, and the send then reaches `group` too. */
  lemma OtherReceiveUnblocksSend(reg: Registry, topic: Topic, group: Group, other: Group, m: Message)
    requires topic in reg && group in reg[topic] && other in reg[topic] && other != group
    requires |reg[topic][other]| == Capacity
    requires forall g :: g in reg[topic] && g != other ==> |reg[topic][g]| < Capacity
    ensures Step(reg, topic, group, Send(m)).None?
    ensures var r := Run(reg, topic, group, [Recv(other), Send(m)]);
            r.Some? && r.value.0 == [] && r.value.1[topic][group] == reg[topic][group] + [m]
  {
    assert !HasRoom(reg, topic) by {
      assert other in reg[topic] && |reg[topic][other]| >= Capacity;
    }
    ReceiveMakesRoom(reg, topic, other);
    var drained := Receive(reg, topic, other).value.1;
    var sent := SendMessage(drained, topic, m);
    var none: seq<Message> := [];
    assert Step(reg, topic, group, Recv(other)) == Some((none, drained));
    assert Step(drained, topic, group, Send(m)) == Some((none, sent));
    assert Run(sent, topic, group, []) == Some((none, sent));
    RunFirst(drained, topic, group, Send(m), [], none, sent);
    assert [Send(m)] + [] == [Send(m)] && none + none == none;
    RunFirst(reg, topic, group, Recv(other), [Send(m)], none, drained);
    assert [Recv(other)] + [Send(m)] == [Recv(other), Send(m)];
    assert sent[topic][group] == drained[topic][group] + [m] == reg[topic][group] + [m];
  }

  /** What an interleaving that starts with `e` sends. */
  lemma SentFirst(e: Event, rest: seq<Event>)
    ensures Sent([e] + rest) == SentBy(e) + Sent(rest)
  {
    assert ([e] + rest)[1..] == rest;
  }

  /** A round sends its one message. */
  lemma SentRound(m: Message, group: Group, other: Group, rest: seq<Event>)
    ensures Sent(Round(m, group, other, rest)) == [m] + Sent(rest)
  {
    SentFirst(Recv(other), rest);
    SentFirst(Recv(group), [Recv(other)] + rest);
    SentFirst(Send(m), [Recv(group)] + ([Recv(other)] + rest));
  }

  /** One round: the publisher sends `m`, then `group` and `other` each receive. */
  function Round(m: Message, group: Group, other: Group, rest: seq<Event>): seq<Event>
  {
    [Send(m)] + ([Recv(group)] + ([Recv(other)] + rest))
  }

  /** One round per message of `ms`, in order: the publisher sends it, then each of two
      groups receives. */
  function Rounds(ms: seq<Message>, group: Group, other: Group): (events: seq<Event>)
    ensures |events| == 3 * |ms|
    ensures Sent(events) == ms
  {
    if ms == [] then []
    else
      var rest := Rounds(ms[1..], group, other);
      SentRound(ms[0], group, other, rest);
      assert [ms[0]] + ms[1..] == ms;
      Round(ms[0], group, other, rest)
  }

  /** The send of a round reaches both channels. */
  lemma RoundSend(reg: Registry, topic: Topic, group: Group, other: Group, m: Message)
    requires topic in reg && group != other && reg[topic] == map[group := [], other := []]
    ensures Step(reg, topic, group, Send(m)) == Some(([], reg[topic := map[group := [m], other := [m]]]))
  {
    assert HasRoom(reg, topic);
    var groups := SendMessage(reg, topic, m)[topic];
    assert groups.Keys == {group, other} && groups[group] == [m] && groups[other] == [m];
    assert groups == map[group := [m], other := [m]];
  }

  /** The receive by a channel's own group takes the message. */
  lemma RoundReceive(reg: Registry, topic: Topic, group: Group, other: Group, m: Message)
    requires topic in reg && group != other && reg[topic] == map[group := [m], other := [m]]
    ensures Step(reg, topic, group, Recv(group)) == Some(([m], reg[topic := map[group := [], other := [m]]]))
  {
    assert Receive(reg, topic, group).value.1[topic] == map[group := [], other := [m]];
  }

  /** The receive by the other group leaves `group`'s channel alone. */
  lemma RoundReceiveOther(reg: Registry, topic: Topic, group: Group, other: Group, m: Message)
    requires topic in reg && group != other && reg[topic] == map[group := [], other := [m]]
    ensures Step(reg, topic, group, Recv(other)) == Some(([], reg[topic := map[group := [], other := []]]))
  {
    assert Receive(reg, topic, other).value.1[topic] == map[group := [], other := []];
  }

  /** One round over two empty channels: `group` receives `m` and the registry is as
      before. */
  lemma RoundRestores(reg: Registry, topic: Topic, group: Group, other: Group, m: Message, rest: seq<Event>)
    requires topic in reg && reg[topic].Keys == {group, other} && group != other
    requires reg[topic][group] == [] && reg[topic][other] == []
    ensures Run(reg, topic, group, Round(m, group, other, rest)) == Prefix([m], Run(reg, topic, group, rest))
  {
    assert reg[topic] == map[group := [], other := []];
    var r1 := reg[topic := map[group := [m], other := [m]]];
    var r2 := reg[topic := map[group := [], other := [m]]];
    assert r2 == r1[topic := map[group := [], other := [m]]];
    assert reg == r2[topic := map[group := [], other := []]];
    RoundSend(reg, topic, group, other, m);
    RoundReceive(r1, topic, group, other, m);
    RoundReceiveOther(r2, topic, group, other, m);
    var none: seq<Message> := [];
    var after := Run(reg, topic, group, rest);
    RunFirst(r2, topic, group, Recv(other), rest, none, reg);
    RunFirst(r1, topic, group, Recv(group), [Recv(other)] + rest, [m], r2);
    RunFirst(reg, topic, group, Send(m), [Recv(group)] + ([Recv(other)] + rest), none, r1);
    PrefixTwice([m], none, after);
    PrefixTwice(none, [m], after);
    assert [m] + none == [m] && none + [m] == [m];
  }

  /** Two subscriber groups that keep draining their channels can run for any number of
      sends, well past the channel capacity, and each group receives every message in
      send order. */
  lemma {:induction false} TwoGroupsReceiveUnbounded(reg: Registry, topic: Topic, group: Group, other: Group,
                                                     ms: seq<Message>)
    requires topic in reg && reg[topic].Keys == {group, other} && group != other
    requires reg[topic][group] == [] && reg[topic][other] == []
    ensures var r := Run(reg, topic, group, Rounds(ms, group, other));
            r.Some? && r.value.0 == ms && r.value.1 == reg
    decreases |ms|
  {
    if ms != [] {
      var rest := Rounds(ms[1..], group, other);
      assert Rounds(ms, group, other) == Round(ms[0], group, other, rest);
      TwoGroupsReceiveUnbounded(reg, topic, group, other, ms[1..]);
      var after := Run(reg, topic, group, rest);
      assert after == Some((ms[1..], reg));
      RoundRestores(reg, topic, group, other, ms[0], rest);
      assert [ms[0]] + ms[1..] == ms;
      assert Prefix([ms[0]], after) == Some((ms, reg));
    }
  }

  /** At process start no topic is open: a send reaches nobody, a close only warns, and
      the first Open creates the topic with the group's empty channel alone. */
  lemma NothingRoutedBeforeOpen(topic: Topic, group: Group, m: Message)
    ensures SendMessage(Empty, topic, m) == Empty
    ensures Close(Empty, topic, group) == Empty
    ensures Open(Empty, topic, group) == map[topic := map[group := []]]
  {
  }

  /** Closing a group that was just started under an already started topic restores the
      registry; under a new topic the (now empty) topic entry remains. */
  lemma CloseUndoesOpen(reg: Registry, topic: Topic, group: Group)
    requires topic in reg ==> group !in reg[topic]
    ensures topic in reg ==> Close(Open(reg, topic, group), topic, group) == reg
    ensures topic !in reg ==> Close(Open(reg, topic, group), topic, group) == reg[topic := map[]]
  {
    var r := Close(Open(reg, topic, group), topic, group);
    if topic in reg {
      assert r[topic] == reg[topic];
    } else {
      assert r[topic] == map[];
    }
  }

  /** Re-opening a group gives its registry slot a fresh empty queue, so the registry
      no longer reaches whatever the old channel still held. (A goroutine that obtained
      the old channel earlier can still drain it; channel identity is not modelled.) */
  lemma ReopenEmptiesSlot(reg: Registry, topic: Topic, group: Group, m: Message)
    requires topic in reg && group in reg[topic] && HasRoom(reg, topic)
    ensures var sent := SendMessage(reg, topic, m);
            && sent[topic][group] != []
            && Open(sent, topic, group)[topic][group] == []
            && GetMessageChannel(Open(sent, topic, group), topic, group) == Some([])
  {
  }
}

=== FILE: log.dfy ===
/** Positions and records of a topic's append-only log, and the orderings over them. */
module Log {

  /** A record position. The broker stores it as a uint64; the subscriber engine only
      compares positions and never computes with them, so no arithmetic can wrap. */
  type Offset = x: int | 0 <= x < 0x1_0000_0000_0000_0000

  newtype Byte = x: int | 0 <= x < 256

  /** An opaque message body. */
  type Body = seq<Byte>

  /** A stored or live-routed record: its position in the topic and its body. */
  datatype Record = Record(offset: Offset, body: Body)

  /** Positions strictly increase along the sequence (so no position repeats). */
  ghost predicate StrictlyIncreasingOffsets(rs: seq<Record>)
  {
    forall i, j :: 0 <= i < j < |rs| ==> rs[i].offset < rs[j].offset
  }

  /** The same ordering on bare positions, as written to the offset store. */
  ghost predicate StrictlyIncreasing(xs: seq<Offset>)
  {
    forall i, j :: 0 <= i < j < |xs| ==> xs[i] < xs[j]
  }

  /** `a` is `b` with some elements left out, the rest kept in order. */
  ghost predicate SubsequenceOf(a: seq<Record>, b: seq<Record>)
    decreases |b|
  {
    if a == [] then true
    else if b == [] then false
    else if a[0] == b[0] then SubsequenceOf(a[1..], b[1..])
    else SubsequenceOf(a, b[1..])
  }

  /** No record occurs twice. */
  ghost predicate Distinct(rs: seq<Record>)
  {
    forall i, j :: 0 <= i < j < |rs| ==> rs[i] != rs[j]
  }
}

=== FILE: options.dfy ===
/** Failure-carrying values used in place of Go's nil pointers and `error` returns. */
module Options {

  /** A value that may be absent, as a Go pointer that may be nil. */
  datatype Option<+T> = None | Some(value: T)

  /** Either a value or the error that a Go function returned instead of it. */
  datatype Result<+T, +E> = Success(value: T) | Failure(error: E)
}

=== FILE: subscriber.dfy ===
/** The subscriber engine of core/subscriber.go: session construction, the replay-then-tail
    delivery loop, the commit-on-success rule and session close.

    Storage, the live gate channel and the caller's handler are not called here; their
    observable outcomes for one fixed run are inputs:
    - the committed offset read from the offset store,
    - `readFrom`, the record store's answer to "every record from position p",
    - `live`, the messages that arrive on the gate channel before cancellation, in order,
    - an `Env` giving, per handler invocation, whether the handler and the offset update succeed. */
module Subscriber {
  import opened Options
  import opened Log

  /** A session bound to one (topic, group). Its gate is identified by the same pair. */
  datatype Sub = Sub(topic: string, group: string)

  datatype SubError =
    | EmptyTopic                 // the package's emptyTopicError
    | InputError(msg: string)
    | ConfigError(cause: string) // returned by the directory set-up for the group

  const GroupEmptyMessage: string := "Group can't be empty"

  /** Validates the topic, then the group, then prepares the group's directory, whose
      outcome `mkDirGroup` is an input (None when it succeeded). */
  function NewSub(topic: string, group: string, mkDirGroup: Option<string>): (r: Result<Sub, SubError>)
    ensures topic == "" ==> r == Failure(EmptyTopic)
    ensures topic != "" && group == "" ==> r == Failure(InputError(GroupEmptyMessage))
    ensures topic != "" && group != "" && mkDirGroup.Some? ==> r == Failure(ConfigError(mkDirGroup.value))
    ensures r.Success? <==> topic != "" && group != "" && mkDirGroup.None?
    ensures r.Success? ==> r.value.topic == topic && r.value.group == group
  {
    if topic == "" then Failure(EmptyTopic)
    else if group == "" then Failure(InputError(GroupEmptyMessage))
    else if mkDirGroup.Some? then Failure(ConfigError(mkDirGroup.value))
    else Success(Sub(topic, group))
  }

  /** Releases the session's gate; a nil session releases nothing. The result names the
      (topic, group) gate that is closed. */
  function Close(s: Option<Sub>): (released: Option<(string, string)>)
    ensures released.None? <==> s.None?
    ensures s.Some? ==> released.value.0 == s.value.topic && released.value.1 == s.value.group
  {
    match s
    case None => None
    case Some(sub) => Some((sub.topic, sub.group))
  }

  /** Outcomes of the calls the engine makes into code it does not own, indexed by the
      handler invocation number (0 for the first record handed to the handler). */
  datatype Env = Env(handlerOk: nat -> bool, updateOk: nat -> bool)

  /** Invocation `i` ends with the record's offset written to the offset store. */
  predicate Persists(env: Env, i: nat)
  {
    env.handlerOk(i) && env.updateOk(i)
  }

  /** Progress of one session: the committed offset it started from, every record handed
      to the handler, the offsets written to the offset store, and the store's value now. */
  datatype Progress = Progress(base: Option<Offset>, delivered: seq<Record>, commits: seq<Offset>, stored: Option<Offset>)

  /** The offsets a session writes, given the records it handed to the handler: the i-th
      record's offset, exactly when that invocation persists. */
  function CommitsOf(env: Env, delivered: seq<Record>): (cs: seq<Offset>)
    ensures |cs| <= |delivered|
    decreases |delivered|
  {
    if delivered == [] then []
    else
      var n := |delivered| - 1;
      CommitsOf(env, delivered[..n]) + (if Persists(env, n) then [delivered[n].offset] else [])
  }

  /** The offset store holds the last offset written, or the starting offset if none was. */
  ghost predicate Consistent(env: Env, p: Progress)
  {
    && p.commits == CommitsOf(env, p.delivered)
    && p.stored == (if p.commits == [] then p.base else Some(p.commits[|p.commits| - 1]))
  }

  /** A session that has handled nothing yet. */
  function Fresh(committed: Option<Offset>): (p: Progress)
    ensures p.base == committed && p.stored == committed
    ensures p.delivered == [] && p.commits == []
  {
    Progress(committed, [], [], committed)
  }

  /** handleMessage: the handler always sees the record; its offset is written only when
      the handler returns no error, and a failed write is logged and ignored. */
  function HandleMessage(env: Env, p: Progress, r: Record): (q: Progress)
    ensures q.base == p.base
    ensures q.delivered == p.delivered + [r]
    ensures Persists(env, |p.delivered|) ==> q.commits == p.commits + [r.offset] && q.stored == Some(r.offset)
    ensures !Persists(env, |p.delivered|) ==> q.commits == p.commits && q.stored == p.stored
  {
    var i := |p.delivered|;
    var seen := p.(delivered := p.delivered + [r]);
    if env.handlerOk(i) then
      if env.updateOk(i) then seen.(commits := p.commits + [r.offset], stored := Some(r.offset))
      else seen
    else seen
  }

  /** Where replay starts: the committed offset, or 0 when none was ever committed. */
  function StartOffset(committed: Option<Offset>): (from: Offset)
    ensures committed.None? ==> from == 0
    ensures committed.Some? ==> from == committed.value
  {
    match committed
    case None => 0
    case Some(o) => o
  }

  /** Catch-up: every historical record is handled, in order. */
  function Replay(env: Env, p: Progress, history: seq<Record>): (q: Progress)
    ensures q.base == p.base
    ensures q.delivered == p.delivered + history
    decreases |history|
  {
    if history == [] then p
    else
      var q := Replay(env, HandleMessage(env, p, history[0]), history[1..]);
      assert p.delivered + history == p.delivered + [history[0]] + history[1..];
      q
  }

  /** The position of the last replayed record, or none when nothing was replayed. When
      the history is ordered it bounds every replayed position. */
  function LastOffset(history: seq<Record>): (last: Option<Offset>)
    ensures last.None? <==> history == []
    ensures last.Some? ==> last.value == history[|history| - 1].offset
    ensures last.Some? && StrictlyIncreasingOffsets(history) ==> forall i :: 0 <= i < |history| ==> history[i].offset <= last.value
  {
    if history == [] then None else Some(history[|history| - 1].offset)
  }

  /** The tail's duplicate filter: a lower bound, not a set of seen positions. */
  predicate Admits(lastOffset: Option<Offset>, m: Record)
  {
    lastOffset.None? || m.offset > lastOffset.value
  }

  /** The live messages the tail hands to the handler, in arrival order. */
  function Admitted(lastOffset: Option<Offset>, live: seq<Record>): (a: seq<Record>)
    ensures |a| <= |live|
    ensures forall m :: m in a <==> m in live && Admits(lastOffset, m)
    decreases |live|
  {
    if live == [] then []
    else (if Admits(lastOffset, live[0]) then [live[0]] else []) + Admitted(lastOffset, live[1..])
  }

  /** Tail: each live message is handled when the filter admits it and skipped otherwise;
      `lastOffset` is a parameter, so it is never advanced here. The end of `live` stands
      for cancellation. */
  function Tail(env: Env, p: Progress, lastOffset: Option<Offset>, live: seq<Record>): (q: Progress)
    ensures q.base == p.base
    ensures q.delivered == p.delivered + Admitted(lastOffset, live)
    decreases |live|
  {
    if live == [] then p
    else
      var rest := Admitted(lastOffset, live[1..]);
      if Admits(lastOffset, live[0]) then
        var q := Tail(env, HandleMessage(env, p, live[0]), lastOffset, live[1..]);
        assert Admitted(lastOffset, live) == [live[0]] + rest;
        assert p.delivered + [live[0]] + rest == p.delivered + ([live[0]] + rest);
        q
      else
        // at or below lastOffset: a record already replayed, so it is skipped
        assert Admitted(lastOffset, live) == rest;
        Tail(env, p, lastOffset, live[1..])
  }

  /** Handling one record keeps the offset store in step with the commits made so far. */
  lemma HandleKeepsConsistent(env: Env, p: Progress, r: Record)
    requires Consistent(env, p)
    ensures Consistent(env, HandleMessage(env, p, r))
  {
  }

  /** Replay keeps the offset store in step with the commits made so far. */
  lemma {:induction false} ReplayKeepsConsistent(env: Env, p: Progress, history: seq<Record>)
    requires Consistent(env, p)
    ensures Consistent(env, Replay(env, p, history))
    decreases |history|
  {
    if history != [] {
      HandleKeepsConsistent(env, p, history[0]);
      ReplayKeepsConsistent(env, HandleMessage(env, p, history[0]), history[1..]);
    }
  }

  /** So does the tail, skipped messages included. */
  lemma {:induction false} TailKeepsConsistent(env: Env, p: Progress, lastOffset: Option<Offset>, live: seq<Record>)
    requires Consistent(env, p)
    ensures Consistent(env, Tail(env, p, lastOffset, live))
    decreases |live|
  {
    if live != [] {
      if Admits(lastOffset, live[0]) {
        HandleKeepsConsistent(env, p, live[0]);
        TailKeepsConsistent(env, HandleMessage(env, p, live[0]), lastOffset, live[1..]);
      } else {
        TailKeepsConsistent(env, p, lastOffset, live[1..]);
      }
    }
  }

  /** What a completed Subscribe call leaves behind. */
  datatype Outcome = Outcome(from: Offset, lastOffset: Option<Offset>, progress: Progress)

  /** Subscribe: read the committed offset, replay the store from it, then tail the live
      messages. A failed store read is returned as the error; cancellation returns success. */
  function Subscribe(env: Env, committed: Option<Offset>, readFrom: Offset -> Result<seq<Record>, string>,
                     live: seq<Record>): (r: Result<Outcome, string>)
    ensures readFrom(StartOffset(committed)).Failure? ==> r == Failure(readFrom(StartOffset(committed)).error)
    ensures readFrom(StartOffset(committed)).Success? ==>
              var history := readFrom(StartOffset(committed)).value;
              && r.Success?
              && r.value.from == StartOffset(committed)
              && r.value.lastOffset == LastOffset(history)
              && r.value.progress.base == committed
              && r.value.progress.delivered == history + Admitted(LastOffset(history), live)
              && Consistent(env, r.value.progress)
  {
    var from := StartOffset(committed);
    match readFrom(from)
    case Failure(e) => Failure(e)
    case Success(history) =>
      var replayed := Replay(env, Fresh(committed), history);
      var lastOffset := LastOffset(history);
      ReplayKeepsConsistent(env, Fresh(committed), history);
      TailKeepsConsistent(env, replayed, lastOffset, live);
      Success(Outcome(from, lastOffset, Tail(env, replayed, lastOffset, live)))
  }
}
